=== FILE: README.md ===
# API gateway: authentication decision, token acceptance and route table

A Dafny model of the decision logic in the project-management API gateway.
The gateway is a Spring Cloud Gateway application, and its real logic lives
in three places:

- **`JwtAuthenticationFilter.apply`** decides each request. It runs a fixed
  pipeline: the public-path check, Authorization-header presence, the
  `Bearer ` prefix strip, token validation and identity-header injection.
  The request is then either forwarded, possibly with mutated headers, or
  rejected with a structured 401 error body. The error code is one of
  `MISSING_AUTH_HEADER`, `INVALID_AUTH_HEADER`, `INVALID_TOKEN`,
  `TOKEN_PROCESSING_ERROR` and `AUTH_SERVICE_ERROR`.
- **`JwtUtil`** is the token verifier. It loads the RSA public key once
  (`init`, where the PEM armour is stripped). It projects claims out of a
  signature-verified token. It accepts a token iff the verified parse
  succeeds, the expiration is not strictly before now, and `tokenType` is
  exactly `"ACCESS"`.
- **`GatewayConfig.customRouteLocator`** is the static route table. It has
  four routes tried in declaration order on segment-aware double-star path
  patterns. The collab route rewrites `/api/collab/<rest>` to `/api/<rest>`.

The files:

| file | module | what it holds |
|---|---|---|
| `wrappers.dfy` | `Wrappers` | `Option` (Java `null`) and `Result` (a thrown exception) |
| `strings.dfy` | `Strings` | `startsWith`, `indexOf`, `replace`, `replaceAll("\\s", "")`, `trim` |
| `headers.dfy` | `Headers` | request headers as name/value pairs, names compared case-insensitively, `header(n, v)` as replace |
| `jwt.dfy` | `Jwt` | `JwtUtil`: key loading, claim projections, `isTokenExpired`, both `validateToken` overloads |
| `auth_filter.dfy` | `AuthFilter` | `JwtAuthenticationFilter`: `apply`, its stages, `handleAuthError` and the fallback body |
| `routes.dfy` | `Routes` | `GatewayConfig`: service URLs, the route table, pattern matching, the collab rewrite |
| `gateway.dfy` | `Gateway` | where the filter's public paths fall in the route table |

Some behaviour is outside this code, and the model takes it as parameters:

- Signature verification is done by the JWT library, which implements RFC 7515
  and RFC 7519. It is the function `SignedParser`, from a key and a token to
  `Option<Claims>`. `None` stands for every exception the library throws.
- Base64 and X.509 key decoding is the function `KeyDecoder`.
- Jackson serialization of the error body is the function `Serializer`.
- The server's header store is the input `HeaderStore`. Its field `nulls`
  says what it does with a `null` value: throw (`RefusesNull`), or drop the
  name's old values and add nothing (`DropsNull`). Its field `accepts` says
  which non-null values it takes without throwing; a Netty-backed store,
  for one, throws on values with certain control characters. The filter
  hands the store the token's subject (`null` when absent), its role, and
  the request time. A store that throws on any of them sends the request to
  `TOKEN_PROCESSING_ERROR`. The gateway's code does not fix either rule, so
  the model proves its results for every store.
- The clock is two explicit inputs. `now` is an integer in milliseconds,
  and expirations are compared with it. `requestTime` is the formatted
  local time stamped on forwarded requests and on error bodies.

The route table and the filter are separate functions. The routes as
configured in `GatewayConfig.java:59-81` never attach the filter, so nothing
here composes them. `Gateway.PublicPathsInRouteTable` only relates the two
path sets.

Five behaviours of the code that the model keeps as written:

- An expiration exactly equal to now is accepted (`Date.before` is strict).
- Every rejection, including `TOKEN_PROCESSING_ERROR`, is sent with status
  401. No path produces a 500.
- Routes carry no "requires authentication" flag. The filter decides that
  from its own fixed public-path list.
- Routes are tried in declaration order, not by specificity. The five
  patterns are pairwise disjoint, so this makes no difference
  (`Routes.FirstMatchIsUnique`).
- `validateToken` returns a plain boolean, with no failure reason.

## Model

| member | source | states |
|---|---|---|
| `Strings.TrimEmptyIffBlank` | src/main/java/com/midlane/project_management_tool_api_gateway/filter/JwtAuthenticationFilter.java:80 | `token.trim().isEmpty()` holds exactly when every character of the token is at most U+0020. So a whitespace-only token counts as missing. |
| `Headers.GetFirst` | src/main/java/com/midlane/project_management_tool_api_gateway/filter/JwtAuthenticationFilter.java:138-151 | `getFirst` is absent exactly when `containsKey` is false. Otherwise it is the first value under that name, compared case-insensitively. |
| `Headers.SetValues` | src/main/java/com/midlane/project_management_tool_api_gateway/filter/JwtAuthenticationFilter.java:97-104 | After `header(n, v)` with a non-null `v`, the name `n`, in any letter case, carries exactly `[v]`, whatever the client sent. Every other name keeps its values. |
| `Headers.PutValues` | src/main/java/com/midlane/project_management_tool_api_gateway/filter/JwtAuthenticationFilter.java:97-98 | On a store that accepts `null`, `header(n, null)` leaves `n` with no value at all. A non-null value replaces the old ones. Every other name keeps its values. |
| `Headers.RemoveAll` | src/main/java/com/midlane/project_management_tool_api_gateway/filter/JwtAuthenticationFilter.java:97-104 | The replacement step drops every value under the name and leaves all other names' values unchanged. |
| `Headers.PutAllValues` | src/main/java/com/midlane/project_management_tool_api_gateway/filter/JwtAuthenticationFilter.java:97-104 | A chain of `header` calls with distinct names leaves each name with exactly its new value, or none for `null`. Names outside the chain are untouched. |
| `Jwt.StripPem` | src/main/java/com/midlane/project_management_tool_api_gateway/util/JwtUtil.java:41-46 | The cleaned key text has no whitespace. So it cannot contain either armour marker, since both contain a space. |
| `Jwt.StripPemRoundTrip` | src/main/java/com/midlane/project_management_tool_api_gateway/util/JwtUtil.java:41-46 | Stripping a PEM document built from a base64 body gives back that body with its line breaks removed. |
| `Jwt.InitOnPem` | src/main/java/com/midlane/project_management_tool_api_gateway/util/JwtUtil.java:30-55 | For a PEM document around any base64 body, key loading succeeds exactly when the body, with its line breaks removed, decodes, and the loaded key is that decoding. The armour lines play no part. |
| `Jwt.ProjectionsOfOneClaimSet` | src/main/java/com/midlane/project_management_tool_api_gateway/util/JwtUtil.java:57-78 | `extractUsername`, `extractRole`, `extractTokenType` and `extractExpiration` all project the same verified claim set. Each one fails when the parse fails. |
| `Jwt.IsTokenExpired` | src/main/java/com/midlane/project_management_tool_api_gateway/util/JwtUtil.java:93-100 | A token is expired iff `exp < now`, so `exp == now` is not expired. A missing expiration or a failed parse counts as expired. |
| `Jwt.ValidateToken` | src/main/java/com/midlane/project_management_tool_api_gateway/util/JwtUtil.java:105-131 | `true` iff the verified parse succeeds, `exp` is present and not before `now`, and `tokenType` is exactly `"ACCESS"`. Every failure becomes `false`. |
| `Jwt.OnlyAccessTokensValidate` | src/main/java/com/midlane/project_management_tool_api_gateway/util/JwtUtil.java:119-124 | A token type that is absent, not a string, or any string other than `"ACCESS"` (such as `"REFRESH"`) never validates. |
| `Jwt.ExpiryBoundary` | src/main/java/com/midlane/project_management_tool_api_gateway/util/JwtUtil.java:93-100 | An access token whose expiration equals `now` is not expired and validates. |
| `Jwt.ValidateTokenFor` | src/main/java/com/midlane/project_management_tool_api_gateway/util/JwtUtil.java:137-145 | `true` iff the subject equals `username` and the token validates. A missing subject or a failed parse gives `false`. |
| `AuthFilter.PublicPathCharacterisation` | src/main/java/com/midlane/project_management_tool_api_gateway/filter/JwtAuthenticationFilter.java:123-133 | A path is public iff it starts with `/api/auth/` or equals `/actuator/health` or `/actuator/info`. The exact-list test adds nothing, and `/api/auth` is not public. |
| `AuthFilter.GetAuthHeader` | src/main/java/com/midlane/project_management_tool_api_gateway/filter/JwtAuthenticationFilter.java:145-151 | A token is returned only when the first Authorization value is `"Bearer " + token`. A header without the case-sensitive prefix yields none. |
| `AuthFilter.BearerRoundTrip` | src/main/java/com/midlane/project_management_tool_api_gateway/filter/JwtAuthenticationFilter.java:145-151 | For every `t`, a first Authorization value of `"Bearer " + t` yields exactly `t`. |
| `AuthFilter.Apply` | src/main/java/com/midlane/project_management_tool_api_gateway/filter/JwtAuthenticationFilter.java:54-117 | A public path is forwarded unchanged. Every rejection is 401 `Unauthorized`, carries the request path, and has one of the five error codes. |
| `AuthFilter.PublicPathBypass` | src/main/java/com/midlane/project_management_tool_api_gateway/filter/JwtAuthenticationFilter.java:63-67 | For a public path the outcome is the unchanged request, whatever the verifier and clock. The header and the token are never consulted. |
| `AuthFilter.MissingHeaderRejected` | src/main/java/com/midlane/project_management_tool_api_gateway/filter/JwtAuthenticationFilter.java:71-75 | A protected path without an Authorization header is rejected with `MISSING_AUTH_HEADER`. |
| `AuthFilter.MalformedHeaderRejected` | src/main/java/com/midlane/project_management_tool_api_gateway/filter/JwtAuthenticationFilter.java:77-83 | A present header that yields no token, or only a blank one, is rejected with `INVALID_AUTH_HEADER`. |
| `AuthFilter.InvalidTokenRejected` | src/main/java/com/midlane/project_management_tool_api_gateway/filter/JwtAuthenticationFilter.java:85-89 | A well-formed bearer header whose token fails `validateToken` is rejected with `INVALID_TOKEN`. |
| `AuthFilter.ForwardedOnlyWhenVerified` | src/main/java/com/midlane/project_management_tool_api_gateway/filter/JwtAuthenticationFilter.java:78-106 | A protected request is forwarded only with a non-blank bearer token that validates, whose role is a string or absent, and whose identity values the store takes. On a store that refuses `null`, the token must also have a subject. The forwarded request keeps its path and gets identity headers built from the verified claims. |
| `AuthFilter.IdentityHeadersContent` | src/main/java/com/midlane/project_management_tool_api_gateway/filter/JwtAuthenticationFilter.java:97-104 | `X-User-Id` and `X-User-Name` carry only the subject, or nothing for a `null` subject; and `X-User-Role` the role or `"USER"`. `X-Request-Source`, `X-Request-Time` and `X-Token-Type` carry `api-gateway`, the time and `ACCESS`. Each replaces any client header; all other headers are unchanged. |
| `AuthFilter.VerifiedTokenForwarded` | src/main/java/com/midlane/project_management_tool_api_gateway/filter/JwtAuthenticationFilter.java:91-106 | A signed, unexpired access token with a string or absent role is forwarded whenever the store takes its identity values, a `null` subject included. `X-User-Id` and `X-User-Name` then carry only that subject, or nothing when there is none. |
| `AuthFilter.ProcessingErrorRejected` | src/main/java/com/midlane/project_management_tool_api_gateway/filter/JwtAuthenticationFilter.java:92-111 | A validated token is rejected with `TOKEN_PROCESSING_ERROR` and status 401 when its role is not a string, or when the store refuses one of its identity values. A missing subject on a store that refuses `null` is one such case; a subject or role the store does not take is another. |
| `AuthFilter.MissingSubjectDependsOnStore` | src/main/java/com/midlane/project_management_tool_api_gateway/filter/JwtAuthenticationFilter.java:92-111 | For a validated token with no subject, whose other identity values the store takes, the request is forwarded iff the store drops `null`, and then it carries neither user header. Otherwise it is rejected with `TOKEN_PROCESSING_ERROR`. |
| `AuthFilter.NoAuthServiceError` | src/main/java/com/midlane/project_management_tool_api_gateway/filter/JwtAuthenticationFilter.java:113-116 | Every step of the outer `try` that the model covers is total, so `AUTH_SERVICE_ERROR` is never produced. |
| `AuthFilter.FallbackCarriesCode` | src/main/java/com/midlane/project_management_tool_api_gateway/filter/JwtAuthenticationFilter.java:179-185 | The hand-built fallback body always contains the error code and `"status":401`. |
| `AuthFilter.WriteError` | src/main/java/com/midlane/project_management_tool_api_gateway/filter/JwtAuthenticationFilter.java:156-188 | A rejection is written with status 401, a JSON content type, `nosniff` and `DENY`. The body is the serialized record, or the fallback naming the code and 401 when serialization fails. |
| `Routes.ServiceUrlDefaults` | src/main/java/com/midlane/project_management_tool_api_gateway/config/GatewayConfig.java:17-27 | With no overrides the four service URLs are localhost ports 8082, 8083, 8084 and 8090. Each URL whose variable is unset keeps its default. |
| `Routes.OverrideReplacesOwnUrl` | src/main/java/com/midlane/project_management_tool_api_gateway/config/GatewayConfig.java:17-27 | Setting one of the four variables to `v` makes its service's URL `v` and leaves the other three URLs as they were. |
| `Routes.Lookup` | src/main/java/com/midlane/project_management_tool_api_gateway/config/GatewayConfig.java:59-81 | The route chosen is the first one in declaration order that matches. `None` means no route matches. |
| `Routes.WildcardMatches` | src/main/java/com/midlane/project_management_tool_api_gateway/config/GatewayConfig.java:62 | A double-star pattern over base `X` matches `X` itself or `X/...`. |
| `Routes.WildcardFixesPrefix` | src/main/java/com/midlane/project_management_tool_api_gateway/config/GatewayConfig.java:62 | A matching path starts with the base, and the next character, if any, is `/`. |
| `Routes.SegmentAware` | src/main/java/com/midlane/project_management_tool_api_gateway/config/GatewayConfig.java:62 | The users pattern matches `/api/users` and `/api/users/42`, but not `/api/usersx`. |
| `Routes.PatternsDisjoint` | src/main/java/com/midlane/project_management_tool_api_gateway/config/GatewayConfig.java:59-81 | No path matches two of the five patterns. |
| `Routes.TableMatches` | src/main/java/com/midlane/project_management_tool_api_gateway/config/GatewayConfig.java:59-81 | Each table route matches exactly the paths its declared patterns match. |
| `Routes.FirstMatchIsUnique` | src/main/java/com/midlane/project_management_tool_api_gateway/config/GatewayConfig.java:59-81 | The first matching route is the only route that matches. |
| `Routes.UserServicePaths` | src/main/java/com/midlane/project_management_tool_api_gateway/config/GatewayConfig.java:61-63 | Paths under `/api/users` or `/api/auth` go to the user-service URL with the path unchanged. |
| `Routes.ProjectServicePaths` | src/main/java/com/midlane/project_management_tool_api_gateway/config/GatewayConfig.java:66-68 | Paths under `/api/projects` go to the project-service URL with the path unchanged. |
| `Routes.NotificationServicePaths` | src/main/java/com/midlane/project_management_tool_api_gateway/config/GatewayConfig.java:71-73 | Paths under `/api/notifications` go to the notification-service URL with the path unchanged. |
| `Routes.CollabServicePaths` | src/main/java/com/midlane/project_management_tool_api_gateway/config/GatewayConfig.java:76-79 | Paths under `/api/collab` go to the collab-service URL with the rewritten path. |
| `Routes.CollabRewriteMaps` | src/main/java/com/midlane/project_management_tool_api_gateway/config/GatewayConfig.java:78 | For every `s`, the rewrite maps `/api/collab/` + `s` to `/api/` + `s`. |
| `Routes.RewriteWithoutOccurrence` | src/main/java/com/midlane/project_management_tool_api_gateway/config/GatewayConfig.java:78 | A path that does not contain `/api/collab/` is left unchanged by the rewrite. |
| `Routes.BareCollabPath` | src/main/java/com/midlane/project_management_tool_api_gateway/config/GatewayConfig.java:77-78 | `/api/collab` with no trailing slash matches the collab route, but the rewrite does not apply, so its path is unchanged. |
| `Routes.NoRouteIff` | src/main/java/com/midlane/project_management_tool_api_gateway/config/GatewayConfig.java:59-81 | A path matches no route iff it matches none of the five patterns. |
| `Routes.UncoveredPaths` | src/main/java/com/midlane/project_management_tool_api_gateway/config/GatewayConfig.java:59-81 | `/health`, `/actuator/health` and `/fallback/user-service` match no route. |
| `Gateway.PublicPathsInRouteTable` | src/main/java/com/midlane/project_management_tool_api_gateway/config/GatewayConfig.java:61-63 | Public `/api/auth/...` paths go to the user service unchanged, and the public health check matches no route. The non-public `/api/auth` still routes to the user service. |

## Left out

- RSA signature verification, JWS/JWT parsing, Base64 and X.509 decoding are
  foreign library code. They are the abstract `SignedParser` and `KeyDecoder`
  functions. The JWT library's own expiry check inside the parse is part of
  that abstraction and is not modelled separately.
- Jackson serialization and the reactive response writing (`Mono`, `Flux`,
  `DataBuffer`, `getBytes`) are left out. Serialization is the abstract
  `Serializer`, and the body is a string.
- Clock reads (`new Date()`, `LocalDateTime.now()`) are explicit inputs.
  Java reads the clock separately in `isTokenExpired` and in the filter. The
  model uses one `now` per request and one formatted `requestTime`.
- Logging is left out, since it does not change any decision.
- `AuthFilter.NoAuthServiceError`: the response-header writes and the
  response writing inside `handleAuthError` are treated as unable to throw.
  A failure there is the only thing that could reach the outer catch, and
  that failure belongs to the server library, which is not part of this
  model.
- `AuthFilter.Enrich`: for a validated token with no subject, the Java code
  passes `null` to the request builder's `header`. Whether a value is
  refused, `null` or not, depends on the server's header store, which is
  not part of this model. The model takes the store as the `HeaderStore`
  input instead of deciding its rules, and `accepts` is not given Netty's
  exact character rule.
- `AuthFilter.ProcessingErrorRejected`: the missing-subject rejection is
  proved only for a store that refuses `null`. For one that drops it,
  `AuthFilter.MissingSubjectDependsOnStore` shows the request is forwarded
  without user headers.
- `AuthFilter.ForwardedOnlyWhenVerified`: "forwarded only with a subject" is
  proved only for a store that refuses `null`. For one that drops it, a
  token with no subject is forwarded with neither user header.
- `Headers.SameName`: header names are compared with ASCII case folding
  only. Non-ASCII letters in header names are not folded.
- `Routes.RewritePath`: Java's `.` stops at line terminators. The model
  takes the whole rest of the path, which agrees because a raw URI path
  cannot contain a line terminator.
- `Routes.PatternMatches` covers only the pattern forms the table uses, which
  are a literal base plus an optional trailing double-star. Other Spring
  `PathPattern` syntax (`*`, `{var}`, `?`) is not modelled. The model matches
  the path as a string, with no percent-decoding and no trailing-slash
  options.
- The CORS bean, `EnvironmentConfig` (`.env` loading), `SecurityConfig`
  (permit-all wiring), `FallbackController` and the application bootstrap
  hold no decision logic and are not part of this model.
- An exception thrown by the downstream filter chain inside the inner `try`
  is not modelled, because that chain is outside the gateway's code.

=== FILE: auth_filter.dfy ===
/** The per-request authentication decision (`JwtAuthenticationFilter`):
    public-path check, Authorization-header presence, `Bearer ` prefix
    strip, token validation, identity-header injection. Every request ends
    either forwarded (possibly with added headers) or rejected with a
    structured 401 error. */
module AuthFilter {

  import opened Wrappers
  import opened Strings
  import opened Headers
  import opened Jwt

  /** The parts of the inbound request the filter reads: the URI path and
      the headers (the body is never inspected). */
  datatype Request = Request(path: string, headers: Headers)

  /** The JSON body of every rejection. */
  datatype ErrorResponse = ErrorResponse(
    message: string,
    errorCode: string,
    status: int,
    statusText: string,
    timestamp: string,
    path: string)

  /** Forward the (possibly mutated) request down the chain, or answer with
      an error. */
  datatype Outcome = Forward(request: Request) | Reject(error: ErrorResponse)

  const PublicPaths: seq<string> := ["/api/auth/", "/actuator/health", "/actuator/info"]
  const Authorization := "Authorization"
  const BearerPrefix := "Bearer "
  const Unauthorized := 401
  const DefaultRole := "USER"
  const GatewaySource := "api-gateway"

  const UserIdHeader := "X-User-Id"
  const UserNameHeader := "X-User-Name"
  const UserRoleHeader := "X-User-Role"
  const RequestSourceHeader := "X-Request-Source"
  const RequestTimeHeader := "X-Request-Time"
  const TokenTypeHeader := "X-Token-Type"

  const MissingAuthHeader := "MISSING_AUTH_HEADER"
  const InvalidAuthHeader := "INVALID_AUTH_HEADER"
  const InvalidToken := "INVALID_TOKEN"
  const TokenProcessingError := "TOKEN_PROCESSING_ERROR"
  const AuthServiceError := "AUTH_SERVICE_ERROR"

  /** The five error codes a rejection can carry. */
  const ErrorCodes: set<string> :=
    {MissingAuthHeader, InvalidAuthHeader, InvalidToken, TokenProcessingError, AuthServiceError}

  // ---------------------------------------------------------------------
  // The stages

  /** `isPublicPath`: an exact hit in the public list, or the prefix and
      equality tests that follow it. */
  predicate IsPublicPath(path: string) {
    || path in PublicPaths
    || StartsWith(path, "/api/auth/")
    || path == "/actuator/health"
    || path == "/actuator/info"
  }

  /** The exact-list test adds nothing to the prefix and equality tests, and
      the bare "/api/auth" is not public. */
  lemma PublicPathCharacterisation(path: string)
    ensures IsPublicPath(path) <==>
      StartsWith(path, "/api/auth/") || path == "/actuator/health" || path == "/actuator/info"
    ensures !IsPublicPath("/api/auth")
  {
    var auth := "/api/auth/";
    assert StartsWith(auth, auth);
    assert !StartsWith("/api/auth", auth);
  }

  /** `isAuthMissing`. */
  predicate IsAuthMissing(req: Request) {
    !ContainsKey(req.headers, Authorization)
  }

  /** `getAuthHeader`: the first Authorization value with its case-sensitive
      "Bearer " prefix removed, or `None` (Java `null`). */
  function GetAuthHeader(req: Request): (token: Option<string>)
    ensures token.Some? ==> GetFirst(req.headers, Authorization) == Some(BearerPrefix + token.value)
    ensures token.None? ==>
      GetFirst(req.headers, Authorization).None? ||
      !StartsWith(GetFirst(req.headers, Authorization).value, BearerPrefix)
  {
    match GetFirst(req.headers, Authorization)
    case Some(header) =>
      if StartsWith(header, BearerPrefix) then
        assert header == BearerPrefix + header[|BearerPrefix|..];
        Some(header[|BearerPrefix|..])
      else None
    case None => None
  }

  /** Stripping inverts prefixing: a first Authorization value of
      "Bearer " + t yields exactly t, whatever t is. */
  lemma BearerRoundTrip(req: Request, t: string)
    requires GetFirst(req.headers, Authorization) == Some(BearerPrefix + t)
    ensures GetAuthHeader(req) == Some(t)
  {
    assert StartsWith(BearerPrefix + t, BearerPrefix);
    assert (BearerPrefix + t)[|BearerPrefix|..] == t;
  }

  /** `handleAuthError`: the rejection record, always 401 "Unauthorized"
      and carrying the request path. */
  function HandleAuthError(req: Request, message: string, errorCode: string, timestamp: string): (o: Outcome)
    ensures o.Reject?
    ensures o.error.status == 401 && o.error.statusText == "Unauthorized"
    ensures o.error.path == req.path && o.error.errorCode == errorCode
  {
    Reject(ErrorResponse(message, errorCode, Unauthorized, "Unauthorized", timestamp, req.path))
  }

  /** The headers added for downstream services, each replacing any header
      of the same name the client sent. A missing subject reaches the
      builder as `null`. */
  function IdentityHeaders(h: Headers, username: Option<string>, role: Option<string>, requestTime: string): Headers {
    PutAll(h, IdentityList(username, role, requestTime))
  }

  /** The `.header(...)` calls of the request mutation, in order. */
  function IdentityList(username: Option<string>, role: Option<string>, requestTime: string): seq<Assignment> {
    [ Assignment(UserIdHeader, username),
      Assignment(UserNameHeader, username),
      Assignment(UserRoleHeader, Some(if role.Some? then role.value else DefaultRole)),
      Assignment(RequestSourceHeader, Some(GatewaySource)),
      Assignment(RequestTimeHeader, Some(requestTime)),
      Assignment(TokenTypeHeader, Some(AccessType)) ]
  }

  /** The names `IdentityHeaders` writes. */
  predicate IsIdentityHeader(n: string) {
    || SameName(n, UserIdHeader)
    || SameName(n, UserNameHeader)
    || SameName(n, UserRoleHeader)
    || SameName(n, RequestSourceHeader)
    || SameName(n, RequestTimeHeader)
    || SameName(n, TokenTypeHeader)
  }

  /** Why the enrichment block fails: a claim could not be read, or the
      header store refused one of the identity values (a `null` subject, or
      a value it does not take). */
  datatype EnrichError = ClaimError(cause: JwtError) | RefusedHeaderValue

  /** The inner `try` after a successful validation: read the subject and
      the role, then mutate the request. A missing subject is handed to the
      header builder as `null`; any value the store refuses makes it throw. */
  function Enrich(u: JwtUtil, store: HeaderStore, req: Request, token: string, requestTime: string): Result<Request, EnrichError> {
    match ExtractUsername(u, token)
    case Failure(e) => Failure(ClaimError(e))
    case Success(username) =>
      match ExtractRole(u, token)
      case Failure(e) => Failure(ClaimError(e))
      case Success(role) =>
        if !Admits(store, IdentityList(username, role, requestTime)) then Failure(RefusedHeaderValue)
        else Success(Request(req.path, IdentityHeaders(req.headers, username, role, requestTime)))
  }

  /** `apply`: the whole decision. `now` is the clock reading the token's
      expiration is compared with; `requestTime` is the formatted local time
      stamped on the forwarded request and on error bodies; `store` is the
      server's header store, which may refuse an identity value. */
  function Apply(u: JwtUtil, store: HeaderStore, req: Request, now: int, requestTime: string): (o: Outcome)
    ensures IsPublicPath(req.path) ==> o == Forward(req)
    ensures o.Reject? ==>
      && o.error.status == 401
      && o.error.statusText == "Unauthorized"
      && o.error.path == req.path
      && o.error.errorCode in ErrorCodes
  {
    if IsPublicPath(req.path) then Forward(req)
    else if IsAuthMissing(req) then
      HandleAuthError(req, "Authorization header is missing", MissingAuthHeader, requestTime)
    else
      var token := GetAuthHeader(req);
      if token.None? || Trim(token.value) == [] then
        HandleAuthError(req, "Invalid Authorization header format", InvalidAuthHeader, requestTime)
      else if !ValidateToken(u, token.value, now) then
        HandleAuthError(req, "Invalid or expired JWT token", InvalidToken, requestTime)
      else
        match Enrich(u, store, req, token.value, requestTime)
        case Success(forwarded) => Forward(forwarded)
        case Failure(_) =>
          HandleAuthError(req, "Error processing JWT token", TokenProcessingError, requestTime)
  }

  // ---------------------------------------------------------------------
  // The decision table, stage by stage

  /** A public path is forwarded untouched whatever the verifier and the
      clock: neither the Authorization header nor the token is consulted. */
  lemma PublicPathBypass(u1: JwtUtil, u2: JwtUtil, s1: HeaderStore, s2: HeaderStore, req: Request, now1: int, now2: int, t1: string, t2: string)
    requires IsPublicPath(req.path)
    ensures Apply(u1, s1, req, now1, t1) == Apply(u2, s2, req, now2, t2) == Forward(req)
  {
  }

  /** A protected path without an Authorization header is rejected with
      MISSING_AUTH_HEADER, and nothing is forwarded. */
  lemma MissingHeaderRejected(u: JwtUtil, store: HeaderStore, req: Request, now: int, requestTime: string)
    requires !IsPublicPath(req.path) && IsAuthMissing(req)
    ensures Apply(u, store, req, now, requestTime).Reject?
    ensures Apply(u, store, req, now, requestTime).error.errorCode == MissingAuthHeader
  {
  }

  /** A present Authorization header whose first value is not "Bearer "
      followed by something non-blank is rejected with INVALID_AUTH_HEADER. */
  lemma MalformedHeaderRejected(u: JwtUtil, store: HeaderStore, req: Request, now: int, requestTime: string)
    requires !IsPublicPath(req.path) && !IsAuthMissing(req)
    requires GetAuthHeader(req).None? || IsBlank(GetAuthHeader(req).value)
    ensures Apply(u, store, req, now, requestTime).Reject?
    ensures Apply(u, store, req, now, requestTime).error.errorCode == InvalidAuthHeader
  {
    if GetAuthHeader(req).Some? {
      TrimEmptyIffBlank(GetAuthHeader(req).value);
    }
  }

  /** A well-formed header whose token does not validate is rejected with
      INVALID_TOKEN. */
  lemma InvalidTokenRejected(u: JwtUtil, store: HeaderStore, req: Request, now: int, requestTime: string, t: string)
    requires !IsPublicPath(req.path)
    requires GetFirst(req.headers, Authorization) == Some(BearerPrefix + t)
    requires !IsBlank(t) && !ValidateToken(u, t, now)
    ensures Apply(u, store, req, now, requestTime).Reject?
    ensures Apply(u, store, req, now, requestTime).error.errorCode == InvalidToken
  {
    BearerRoundTrip(req, t);
    TrimEmptyIffBlank(t);
  }

  /** The six names `IdentityHeaders` writes are pairwise different. */
  lemma IdentityNamesDistinct(username: Option<string>, role: Option<string>, requestTime: string)
    ensures DistinctNames(IdentityList(username, role, requestTime))
  {
    var hs := IdentityList(username, role, requestTime);
    assert Lower(UserNameHeader)[7] == 'n';
    assert Lower(UserRoleHeader)[7] == 'r';
    forall i, j | 0 <= i < j < |hs| ensures !SameName(hs[i].name, hs[j].name) {
      assert Lower(hs[i].name) != Lower(hs[j].name);
    }
  }

  /** The identity headers replace whatever the client sent under those
      names, and every other header keeps its values. A `null` subject
      leaves no value under the two user names. */
  lemma IdentityHeadersContent(h: Headers, username: Option<string>, role: Option<string>, requestTime: string)
    ensures
      var r := IdentityHeaders(h, username, role, requestTime);
      && Values(r, UserIdHeader) == Assigned(username)
      && Values(r, UserNameHeader) == Assigned(username)
      && Values(r, UserRoleHeader) == [if role.Some? then role.value else DefaultRole]
      && Values(r, RequestSourceHeader) == [GatewaySource]
      && Values(r, RequestTimeHeader) == [requestTime]
      && Values(r, TokenTypeHeader) == [AccessType]
      && forall n :: !IsIdentityHeader(n) ==> Values(r, n) == Values(h, n)
  {
    var hs := IdentityList(username, role, requestTime);
    IdentityNamesDistinct(username, role, requestTime);
    PutAllValues(h, hs);
    var r := PutAll(h, hs);
    assert Values(r, hs[0].name) == Assigned(hs[0].value) && Values(r, hs[1].name) == Assigned(hs[1].value);
    assert Values(r, hs[2].name) == Assigned(hs[2].value) && Values(r, hs[3].name) == Assigned(hs[3].value);
    assert Values(r, hs[4].name) == Assigned(hs[4].value) && Values(r, hs[5].name) == Assigned(hs[5].value);
    forall n | !IsIdentityHeader(n) ensures Values(r, n) == Values(h, n) {
      forall i | 0 <= i < |hs| ensures !SameName(n, hs[i].name) {
        assert i == 0 || i == 1 || i == 2 || i == 3 || i == 4 || i == 5;
      }
    }
  }

  /** The role header's value for a verified claim set: the string role, or
      "USER" when the claim is absent. */
  function RoleOf(c: Claims): Option<string> {
    if c.role.Some? && c.role.value.Text? then Some(c.role.value.text) else None
  }

  /** A protected request is forwarded only with a non-blank bearer token
      that validates, a role that is a string or absent, and identity values
      the store takes; on a store that refuses `null`, only with a subject
      too. The forwarded request keeps the path and carries the identity
      headers built from the verified claims. */
  lemma ForwardedOnlyWhenVerified(u: JwtUtil, store: HeaderStore, req: Request, now: int, requestTime: string)
    requires !IsPublicPath(req.path)
    ensures Apply(u, store, req, now, requestTime).Forward? ==>
      && GetAuthHeader(req).Some?
      && !IsBlank(GetAuthHeader(req).value)
      && ValidateToken(u, GetAuthHeader(req).value, now)
      && var c := Parse(u, GetAuthHeader(req).value).value;
         && c.role != Some(NonText)
         && Admits(store, IdentityList(c.subject, RoleOf(c), requestTime))
         && (store.nulls == RefusesNull ==> c.subject.Some?)
         && Apply(u, store, req, now, requestTime).request
            == Request(req.path, IdentityHeaders(req.headers, c.subject, RoleOf(c), requestTime))
  {
    if Apply(u, store, req, now, requestTime).Forward? {
      var t := GetAuthHeader(req).value;
      TrimEmptyIffBlank(t);
      ProjectionsOfOneClaimSet(u, t);
      var c := Parse(u, t).value;
      assert IdentityList(c.subject, RoleOf(c), requestTime)[0].value == c.subject;
    }
  }

  /** A correctly signed, unexpired access token whose role is a string or
      absent is forwarded when the store takes its identity values (a
      `null` subject included). The user headers then carry only that
      subject, or nothing at all; the client cannot keep a value of its own
      under either name. */
  lemma VerifiedTokenForwarded(u: JwtUtil, store: HeaderStore, req: Request, now: int, requestTime: string, t: string)
    requires !IsPublicPath(req.path)
    requires GetFirst(req.headers, Authorization) == Some(BearerPrefix + t) && !IsBlank(t)
    requires Parse(u, t).Some? && AcceptableClaims(Parse(u, t).value, now)
    requires Parse(u, t).value.role != Some(NonText)
    requires Admits(store, IdentityList(Parse(u, t).value.subject, RoleOf(Parse(u, t).value), requestTime))
    ensures Apply(u, store, req, now, requestTime).Forward?
    ensures Values(Apply(u, store, req, now, requestTime).request.headers, UserIdHeader)
         == Assigned(Parse(u, t).value.subject)
    ensures Values(Apply(u, store, req, now, requestTime).request.headers, UserNameHeader)
         == Assigned(Parse(u, t).value.subject)
  {
    BearerRoundTrip(req, t);
    TrimEmptyIffBlank(t);
    ProjectionsOfOneClaimSet(u, t);
    var c := Parse(u, t).value;
    IdentityHeadersContent(req.headers, c.subject, RoleOf(c), requestTime);
  }

  /** A validated token whose role is not a string, or whose identity values
      the store refuses (a missing subject on a store that refuses `null`,
      a subject or role it does not take), fails in the enrichment block:
      TOKEN_PROCESSING_ERROR, still 401. */
  lemma ProcessingErrorRejected(u: JwtUtil, store: HeaderStore, req: Request, now: int, requestTime: string, t: string)
    requires !IsPublicPath(req.path)
    requires GetFirst(req.headers, Authorization) == Some(BearerPrefix + t) && !IsBlank(t)
    requires ValidateToken(u, t, now)
    requires || Parse(u, t).value.role == Some(NonText)
             || !Admits(store, IdentityList(Parse(u, t).value.subject, RoleOf(Parse(u, t).value), requestTime))
    ensures Apply(u, store, req, now, requestTime).Reject?
    ensures Apply(u, store, req, now, requestTime).error.errorCode == TokenProcessingError
    ensures Apply(u, store, req, now, requestTime).error.status == 401
  {
    BearerRoundTrip(req, t);
    TrimEmptyIffBlank(t);
    ProjectionsOfOneClaimSet(u, t);
  }

  /** For a validated token with no subject, a usable role and other
      identity values the store takes, the outcome turns on the store's
      treatment of `null` alone: forwarded, with neither user header,
      exactly when it drops `null`; otherwise TOKEN_PROCESSING_ERROR. */
  lemma MissingSubjectDependsOnStore(u: JwtUtil, store: HeaderStore, req: Request, now: int, requestTime: string, t: string)
    requires !IsPublicPath(req.path)
    requires GetFirst(req.headers, Authorization) == Some(BearerPrefix + t) && !IsBlank(t)
    requires ValidateToken(u, t, now)
    requires Parse(u, t).value.subject.None? && Parse(u, t).value.role != Some(NonText)
    requires Admits(HeaderStore(DropsNull, store.accepts), IdentityList(None, RoleOf(Parse(u, t).value), requestTime))
    ensures Apply(u, store, req, now, requestTime).Forward? <==> store.nulls == DropsNull
    ensures store.nulls == DropsNull ==>
      var fwd := Apply(u, store, req, now, requestTime).request.headers;
      !ContainsKey(fwd, UserIdHeader) && !ContainsKey(fwd, UserNameHeader)
    ensures store.nulls == RefusesNull ==>
      Apply(u, store, req, now, requestTime).error.errorCode == TokenProcessingError
  {
    var c := Parse(u, t).value;
    var hs := IdentityList(None, RoleOf(c), requestTime);
    if store.nulls == DropsNull {
      assert store == HeaderStore(DropsNull, store.accepts);
      VerifiedTokenForwarded(u, store, req, now, requestTime, t);
    } else {
      assert hs[0].value.None?;
      assert !Admits(store, hs);
      ProcessingErrorRejected(u, store, req, now, requestTime, t);
    }
  }

  /** Every step of the outer `try` that the model covers is total, so its
      catch-all is never reached: AUTH_SERVICE_ERROR is never produced. */
  lemma NoAuthServiceError(u: JwtUtil, store: HeaderStore, req: Request, now: int, requestTime: string)
    ensures Apply(u, store, req, now, requestTime).Reject? ==>
      Apply(u, store, req, now, requestTime).error.errorCode != AuthServiceError
  {
  }

  // ---------------------------------------------------------------------
  // Writing the rejection

  /** The HTTP response a rejection becomes. */
  datatype Response = Response(status: int, headers: Headers, body: string)

  /** Jackson's `writeValueAsString`: `None` where it throws. */
  type Serializer = ErrorResponse -> Option<string>

  /** The status member of the fallback body. */
  const StatusField := "\"status\":401"

  /** The hand-assembled body used when serialization fails. */
  function FallbackBody(message: string, errorCode: string): string {
    "{\"error\":\"" + message + "\",\"errorCode\":\"" + errorCode + "\"," + StatusField + "}"
  }

  /** The fallback body always names the error code and the 401 status. */
  lemma FallbackCarriesCode(message: string, errorCode: string)
    ensures Contains(FallbackBody(message, errorCode), errorCode)
    ensures Contains(FallbackBody(message, errorCode), StatusField)
  {
    var a := "{\"error\":\"" + message + "\",\"errorCode\":\"";
    var body := FallbackBody(message, errorCode);
    assert body == a + errorCode + ("\"," + StatusField + "}");
    OccursInConcat(a, errorCode, "\"," + StatusField + "}");
    assert body == (a + errorCode + "\",") + StatusField + "}";
    OccursInConcat(a + errorCode + "\",", StatusField, "}");
  }

  lemma OccursInConcat(x: string, y: string, z: string)
    ensures OccursAt(x + y + z, y, |x|)
  {
    assert (x + y + z)[|x|..|x| + |y|] == y;
  }

  /** The response `handleAuthError` writes: status 401, JSON content type
      and the two security headers, and a body that is the serialized record
      or, when serialization fails, the fallback. */
  function WriteError(e: ErrorResponse, serialize: Serializer): (resp: Response)
    ensures resp.status == 401
    ensures Values(resp.headers, "Content-Type") == ["application/json"]
    ensures Values(resp.headers, "X-Content-Type-Options") == ["nosniff"]
    ensures Values(resp.headers, "X-Frame-Options") == ["DENY"]
    ensures serialize(e).Some? ==> resp.body == serialize(e).value
    ensures serialize(e).None? ==>
      Contains(resp.body, e.errorCode) && Contains(resp.body, StatusField)
  {
    var headers := [
      Header("Content-Type", "application/json"),
      Header("X-Content-Type-Options", "nosniff"),
      Header("X-Frame-Options", "DENY")];
    match serialize(e)
    case Some(body) => Response(Unauthorized, headers, body)
    case None =>
      FallbackCarriesCode(e.message, e.errorCode);
      Response(Unauthorized, headers, FallbackBody(e.message, e.errorCode))
  }
}

=== FILE: gateway.dfy ===
/** How the filter's public paths sit in the route table. The routes as
    configured never attach the filter; these facts describe where a
    request the filter would let through unchecked is sent. */
module Gateway {

  import opened Strings
  import opened Wrappers
  import Routes
  import AuthFilter

  /** Public authentication endpoints are served by the user service with
      their path unchanged; the public health checks match no route; the
      bare "/api/auth" routes to the user service yet is not public. */
  lemma PublicPathsInRouteTable(urls: Routes.ServiceUrls, path: string)
    ensures StartsWith(path, "/api/auth/") ==>
      AuthFilter.IsPublicPath(path) &&
      Routes.Resolve(Routes.RouteTable(urls), path) == Some(Routes.Forwarding(urls.user, path))
    ensures AuthFilter.IsPublicPath("/actuator/health")
    ensures Routes.Resolve(Routes.RouteTable(urls), "/actuator/health").None?
    ensures !AuthFilter.IsPublicPath("/api/auth")
    ensures Routes.Resolve(Routes.RouteTable(urls), "/api/auth") == Some(Routes.Forwarding(urls.user, "/api/auth"))
  {
    AuthFilter.PublicPathCharacterisation(path);
    Routes.PatternShapes();
    if StartsWith(path, "/api/auth/") {
      Routes.WildcardMatches("/api/auth", path);
      Routes.UserServicePaths(urls, path);
    }
    Routes.UncoveredPaths(urls);
    Routes.WildcardMatches("/api/auth", "/api/auth");
    Routes.UserServicePaths(urls, "/api/auth");
  }
}

=== FILE: headers.dfy ===
/** HTTP request headers as the gateway sees them: an ordered list of
    name/value pairs whose names compare case-insensitively. */
module Headers {

  import opened Wrappers

  datatype Header = Header(name: string, value: string)

  type Headers = seq<Header>

  /** ASCII lower-casing of one character. */
  function LowerChar(c: char): char {
    if 'A' <= c <= 'Z' then (c as int + 32) as char else c
  }

  function Lower(s: string): (r: string)
    ensures |r| == |s|
    ensures forall i :: 0 <= i < |s| ==> r[i] == LowerChar(s[i])
  {
    seq(|s|, i requires 0 <= i < |s| => LowerChar(s[i]))
  }

  /** Header names are compared without regard to letter case. */
  predicate SameName(a: string, b: string) {
    Lower(a) == Lower(b)
  }

  /** Every value carried under `name`, in order: `getHeaders().get(name)`. */
  function Values(h: Headers, name: string): seq<string> {
    if h == [] then []
    else (if SameName(h[0].name, name) then [h[0].value] else []) + Values(h[1..], name)
  }

  /** `getHeaders().containsKey(name)`. */
  predicate ContainsKey(h: Headers, name: string) {
    Values(h, name) != []
  }

  /** `getHeaders().getFirst(name)`: the first value carried under `name`. */
  function GetFirst(h: Headers, name: string): (v: Option<string>)
    ensures v.None? <==> !ContainsKey(h, name)
    ensures v.Some? ==> v.value == Values(h, name)[0]
  {
    if h == [] then None
    else if SameName(h[0].name, name) then Some(h[0].value)
    else GetFirst(h[1..], name)
  }

  /** Drops every header carried under `name`; all others keep their values. */
  function RemoveAll(h: Headers, name: string): (r: Headers)
    ensures forall n :: Values(r, n) == if SameName(n, name) then [] else Values(h, n)
  {
    if h == [] then []
    else if SameName(h[0].name, name) then RemoveAll(h[1..], name)
    else [h[0]] + RemoveAll(h[1..], name)
  }

  /** The request builder's `header(name, value)` for a non-null value: the
      value replaces every header of the same name, whatever its letter case. */
  function Set(h: Headers, name: string, value: string): Headers {
    RemoveAll(h, name) + [Header(name, value)]
  }

  /** After `Set`, the name carries exactly the new value and every other
      name keeps its values. */
  lemma SetValues(h: Headers, name: string, value: string)
    ensures forall n :: Values(Set(h, name, value), n) == if SameName(n, name) then [value] else Values(h, n)
  {
    forall n ensures Values(Set(h, name, value), n) == if SameName(n, name) then [value] else Values(h, n) {
      AppendOne(RemoveAll(h, name), Header(name, value), n);
    }
  }

  /** What the server's header store does when the builder is handed a
      `null` value: throw, or drop the old values and add nothing. The
      gateway's own code does not decide this; the server library does. */
  datatype NullHandling = RefusesNull | DropsNull

  /** A `header(name, value)` call whose value may be `null` (`None`). */
  datatype Assignment = Assignment(name: string, value: Option<string>)

  /** The server's header store, as far as `header(name, value)` depends on
      it: what it does with `null`, and which non-null values it takes
      without throwing. A Netty-backed store, for one, throws on values that
      carry certain control characters; `accepts` stands for that rule. */
  datatype HeaderStore = HeaderStore(nulls: NullHandling, accepts: string -> bool)

  /** The store takes every assignment of `hs` without throwing. */
  predicate Admits(store: HeaderStore, hs: seq<Assignment>) {
    forall i :: 0 <= i < |hs| ==>
      if hs[i].value.Some? then store.accepts(hs[i].value.value) else store.nulls == DropsNull
  }

  /** The values a name carries once it has been assigned `v`. */
  function Assigned(v: Option<string>): seq<string> {
    if v.Some? then [v.value] else []
  }

  /** `header(name, value)` on a store that accepts `null`: a null value
      clears the name, any other value replaces its values. */
  function Put(h: Headers, name: string, v: Option<string>): Headers {
    if v.Some? then Set(h, name, v.value) else RemoveAll(h, name)
  }

  /** After `Put`, the name carries exactly what was assigned (nothing for
      `null`) and every other name keeps its values. */
  lemma PutValues(h: Headers, name: string, v: Option<string>)
    ensures forall n :: Values(Put(h, name, v), n) == if SameName(n, name) then Assigned(v) else Values(h, n)
  {
    if v.Some? {
      SetValues(h, name, v.value);
    }
  }

  /** Assignments no two of which name the same header. */
  predicate DistinctNames(hs: seq<Assignment>) {
    forall i, j :: 0 <= i < j < |hs| ==> !SameName(hs[i].name, hs[j].name)
  }

  /** The assignments of `hs` carried out in turn. */
  function PutAll(h: Headers, hs: seq<Assignment>): Headers
    decreases |hs|
  {
    if hs == [] then h else PutAll(Put(h, hs[0].name, hs[0].value), hs[1..])
  }

  /** After assignments with distinct names, each name carries exactly what
      it was assigned, and every name not among them keeps its old values. */
  lemma {:induction false} PutAllValues(h: Headers, hs: seq<Assignment>)
    requires DistinctNames(hs)
    ensures forall i :: 0 <= i < |hs| ==> Values(PutAll(h, hs), hs[i].name) == Assigned(hs[i].value)
    ensures forall n :: (forall i :: 0 <= i < |hs| ==> !SameName(n, hs[i].name)) ==>
      Values(PutAll(h, hs), n) == Values(h, n)
    decreases |hs|
  {
    if hs != [] {
      var h' := Put(h, hs[0].name, hs[0].value);
      PutValues(h, hs[0].name, hs[0].value);
      var tail := hs[1..];
      assert DistinctNames(tail) by {
        forall i, j | 0 <= i < j < |tail| ensures !SameName(tail[i].name, tail[j].name) {
          assert tail[i] == hs[i + 1] && tail[j] == hs[j + 1];
        }
      }
      PutAllValues(h', tail);
      forall i | 0 <= i < |hs| ensures Values(PutAll(h, hs), hs[i].name) == Assigned(hs[i].value) {
        if i == 0 {
          forall k | 0 <= k < |tail| ensures !SameName(hs[0].name, tail[k].name) {
            assert tail[k] == hs[k + 1];
          }
        } else {
          assert hs[i] == tail[i - 1];
        }
      }
      forall n | forall i :: 0 <= i < |hs| ==> !SameName(n, hs[i].name)
        ensures Values(PutAll(h, hs), n) == Values(h, n)
      {
        forall k | 0 <= k < |tail| ensures !SameName(n, tail[k].name) {
          assert tail[k] == hs[k + 1];
        }
      }
    }
  }

  lemma AppendOne(a: Headers, x: Header, n: string)
    ensures Values(a + [x], n) == Values(a, n) + (if SameName(x.name, n) then [x.value] else [])
  {
    ValuesAppend(a, [x], n);
    assert [x][1..] == [];
  }

  lemma {:induction false} ValuesAppend(a: Headers, b: Headers, n: string)
    ensures Values(a + b, n) == Values(a, n) + Values(b, n)
    decreases |a|
  {
    if a == [] {
      assert a + b == b;
    } else {
      assert (a + b)[1..] == a[1..] + b;
      ValuesAppend(a[1..], b, n);
    }
  }
}

=== FILE: jwt.dfy ===
/** The gateway's token verifier (`JwtUtil`): loading the RSA public key once
    at start-up, projecting claims out of a signature-verified token, and the
    accept/reject rule for access tokens.

    Signature verification and key decoding are foreign code (the JWT
    library and the JCA); they enter the model as total functions that
    return `None` where the library throws. */
module Jwt {

  import opened Wrappers
  import opened Strings

  /** An RSA public key in its X.509 SubjectPublicKeyInfo encoding. */
  datatype PublicKey = PublicKey(encoded: seq<bv8>)

  /** A claim's JSON value. Only a string value can be read as a `String`;
      asking for any other value as one raises a required-type error. */
  datatype ClaimValue = Text(text: string) | NonText

  /** The payload of a token whose signature verified. `expiration` is in
      milliseconds since the epoch, as `java.util.Date` holds it. */
  datatype Claims = Claims(
    subject: Option<string>,
    expiration: Option<int>,
    role: Option<ClaimValue>,
    tokenType: Option<ClaimValue>)

  /** The library's signature-checking parse of a token under a key,
      yielding its payload: `None` wherever the library throws (bad
      signature, malformed token, ...). */
  type SignedParser = (PublicKey, string) -> Option<Claims>

  /** Base64 decoding followed by `KeyFactory.getInstance("RSA").generatePublic`:
      `None` wherever either throws. */
  type KeyDecoder = string -> Option<PublicKey>

  /** Why a claim read threw. */
  datatype JwtError =
    | ParseFailed                 // the signature-checking parse threw
    | RequiredType(claim: string) // the claim is present but not a string

  /** A loaded verifier: the key never changes after `Init`. */
  datatype JwtUtil = JwtUtil(publicKey: PublicKey, parser: SignedParser)

  /** Key loading failed, which the verifier treats as fatal. */
  datatype InitError = KeyUnavailable

  const BeginMarker := "-----BEGIN PUBLIC KEY-----"
  const EndMarker := "-----END PUBLIC KEY-----"
  const AccessType := "ACCESS"

  // ---------------------------------------------------------------------
  // Key loading

  /** The cleaning step of `decodePublicKey`: drop the PEM armour lines,
      then every whitespace character. */
  function StripPem(pem: string): (r: string)
    ensures NoWhitespace(r)
    ensures !Contains(r, BeginMarker) && !Contains(r, EndMarker)
  {
    var r := RemoveWhitespace(ReplaceAll(ReplaceAll(pem, BeginMarker, ""), EndMarker, ""));
    assert IsWhitespace(BeginMarker[10]) && IsWhitespace(EndMarker[8]);
    NoWhitespaceExcludes(r, BeginMarker, 10);
    NoWhitespaceExcludes(r, EndMarker, 8);
    r
  }

  /** Three lines, each ended by a line break. */
  function ThreeLines(first: string, middle: string, last: string): string {
    first + "\n" + middle + "\n" + last + "\n"
  }

  /** A PEM document around a base64 body (which may carry line breaks). */
  function Pem(body: string): string {
    ThreeLines(BeginMarker, body, EndMarker)
  }

  /** Replacing a marker in three lines acts line by line, and leaves a
      middle line free of the marker's first character alone. */
  lemma ReplaceInLines(first: string, body: string, last: string, pat: string)
    requires |pat| > 0
    requires forall i :: 0 <= i < |pat| ==> pat[i] != '\n'
    requires forall i :: 0 <= i < |body| ==> body[i] != pat[0]
    ensures ReplaceAll(ThreeLines(first, body, last), pat, "")
         == ThreeLines(ReplaceAll(first, pat, ""), body, ReplaceAll(last, pat, ""))
  {
    var nl := '\n';
    var lastLine := last + [nl];
    var tail := body + [nl] + lastLine;
    assert ThreeLines(first, body, last) == first + [nl] + tail;
    ReplaceAllLastChar(last, nl, pat, "");
    ReplaceAllAbsent(body, pat, "");
    ReplaceAllSplit(body, nl, lastLine, pat, "");
    ReplaceAllSplit(first, nl, tail, pat, "");
  }

  lemma MarkerFacts()
    ensures forall i :: 0 <= i < |BeginMarker| ==> BeginMarker[i] != '\n'
    ensures forall i :: 0 <= i < |EndMarker| ==> EndMarker[i] != '\n'
    ensures BeginMarker[0] == '-' && EndMarker[0] == '-'
    ensures ReplaceAll(BeginMarker, BeginMarker, "") == []
    ensures ReplaceAll(EndMarker, BeginMarker, "") == EndMarker
    ensures ReplaceAll([], EndMarker, "") == []
    ensures ReplaceAll(EndMarker, EndMarker, "") == []
  {
    assert BeginMarker[|BeginMarker|..] == [];
    assert EndMarker[|EndMarker|..] == [];
  }

  /** Stripping the armour recovers the base64 body with its line breaks
      removed. Base64 text never contains '-', the markers' first character. */
  lemma StripPemRoundTrip(body: string)
    requires forall i :: 0 <= i < |body| ==> body[i] != '-'
    ensures StripPem(Pem(body)) == RemoveWhitespace(body)
  {
    BeginPass(body);
    EndPass(body);
    WhitespacePass(body);
  }

  /** Removing the begin marker empties the first line. */
  lemma BeginPass(body: string)
    requires forall i :: 0 <= i < |body| ==> body[i] != '-'
    ensures ReplaceAll(Pem(body), BeginMarker, "") == ThreeLines("", body, EndMarker)
  {
    MarkerFacts();
    ReplaceInLines(BeginMarker, body, EndMarker, BeginMarker);
  }

  /** Removing the end marker then empties the last line. */
  lemma EndPass(body: string)
    requires forall i :: 0 <= i < |body| ==> body[i] != '-'
    ensures ReplaceAll(ThreeLines("", body, EndMarker), EndMarker, "") == ThreeLines("", body, "")
  {
    MarkerFacts();
    ReplaceInLines("", body, EndMarker, EndMarker);
  }

  /** What is left besides the body is line breaks, which whitespace
      removal drops. */
  lemma WhitespacePass(body: string)
    ensures RemoveWhitespace(ThreeLines("", body, "")) == RemoveWhitespace(body)
  {
    var nl := '\n';
    var breaks := [nl, nl];
    assert ThreeLines("", body, "") == [nl] + (body + breaks);
    RemoveWhitespaceAppend([nl], body + breaks);
    RemoveWhitespaceAppend(body, breaks);
    assert RemoveWhitespace(breaks) == [];
    assert RemoveWhitespace([nl]) == [];
  }

  /** `init`: the verifier exists only once the key has been decoded; a key
      that does not decode is fatal. */
  function Init(pem: string, decode: KeyDecoder, parser: SignedParser): (r: Result<JwtUtil, InitError>)
    ensures r.Failure? <==> decode(StripPem(pem)).None?
    ensures r.Success? ==> r.value.publicKey == decode(StripPem(pem)).value
  {
    match decode(StripPem(pem))
    case None => Failure(KeyUnavailable)
    case Some(key) => Success(JwtUtil(key, parser))
  }

  /** Loading a key from a PEM document succeeds exactly when its base64
      body, line breaks removed, decodes; the armour plays no part. */
  lemma InitOnPem(body: string, decode: KeyDecoder, parser: SignedParser)
    requires forall i :: 0 <= i < |body| ==> body[i] != '-'
    ensures Init(Pem(body), decode, parser).Success? <==> decode(RemoveWhitespace(body)).Some?
    ensures Init(Pem(body), decode, parser).Success? ==>
      Init(Pem(body), decode, parser).value.publicKey == decode(RemoveWhitespace(body)).value
  {
    StripPemRoundTrip(body);
  }

  // ---------------------------------------------------------------------
  // Claim projections: each one re-parses the token with signature checking

  /** The signature-verified parse of `token` under the loaded key. */
  function Parse(u: JwtUtil, token: string): Option<Claims> {
    u.parser(u.publicKey, token)
  }

  /** `extractAllClaims`. */
  function ExtractAllClaims(u: JwtUtil, token: string): (r: Result<Claims, JwtError>)
    ensures r.Failure? <==> Parse(u, token).None?
    ensures r.Success? ==> r.value == Parse(u, token).value
  {
    match Parse(u, token)
    case None => Failure(ParseFailed)
    case Some(c) => Success(c)
  }

  /** `extractClaim`: applies `resolver` to the verified claims. */
  function ExtractClaim<T>(u: JwtUtil, token: string, resolver: Claims -> T): Result<T, JwtError> {
    var claims :- ExtractAllClaims(u, token);
    Success(resolver(claims))
  }

  /** `claims.get(name, String.class)`: absent reads as `null`, a string as
      itself, anything else throws. */
  function ReadString(name: string, v: Option<ClaimValue>): (r: Result<Option<string>, JwtError>)
    ensures r.Failure? <==> v == Some(NonText)
    ensures r == Success(None) <==> v.None?
    ensures forall s :: r == Success(Some(s)) <==> v == Some(Text(s))
  {
    match v
    case None => Success(None)
    case Some(Text(s)) => Success(Some(s))
    case Some(NonText) => Failure(RequiredType(name))
  }

  /** `extractUsername`: the subject claim. */
  function ExtractUsername(u: JwtUtil, token: string): Result<Option<string>, JwtError> {
    ExtractClaim(u, token, (c: Claims) => c.subject)
  }

  /** `extractExpiration`. */
  function ExtractExpiration(u: JwtUtil, token: string): Result<Option<int>, JwtError> {
    ExtractClaim(u, token, (c: Claims) => c.expiration)
  }

  /** `extractRole`. */
  function ExtractRole(u: JwtUtil, token: string): Result<Option<string>, JwtError> {
    var claims :- ExtractAllClaims(u, token);
    ReadString("role", claims.role)
  }

  /** `extractTokenType`. */
  function ExtractTokenType(u: JwtUtil, token: string): Result<Option<string>, JwtError> {
    var claims :- ExtractAllClaims(u, token);
    ReadString("tokenType", claims.tokenType)
  }

  /** The projections all read the same verified claim set; parse failure
      surfaces as a failure in each, never as a value. */
  lemma ProjectionsOfOneClaimSet(u: JwtUtil, token: string)
    ensures Parse(u, token).None? ==>
      && ExtractUsername(u, token) == Failure(ParseFailed)
      && ExtractRole(u, token) == Failure(ParseFailed)
      && ExtractTokenType(u, token) == Failure(ParseFailed)
      && ExtractExpiration(u, token) == Failure(ParseFailed)
    ensures Parse(u, token).Some? ==>
      var c := Parse(u, token).value;
      && ExtractUsername(u, token) == Success(c.subject)
      && ExtractExpiration(u, token) == Success(c.expiration)
      && ExtractRole(u, token) == ReadString("role", c.role)
      && ExtractTokenType(u, token) == ReadString("tokenType", c.tokenType)
  {
  }

  // ---------------------------------------------------------------------
  // Validation

  /** `isTokenExpired`, with the clock read passed in as `now`: a token is
      expired when its expiration lies strictly before `now`, and also when
      the expiration cannot be read at all. */
  function IsTokenExpired(u: JwtUtil, token: string, now: int): (expired: bool)
    ensures Parse(u, token).None? ==> expired
    ensures Parse(u, token).Some? && Parse(u, token).value.expiration.None? ==> expired
    ensures forall exp :: Parse(u, token).Some? && Parse(u, token).value.expiration == Some(exp) ==>
      (expired <==> exp < now)
  {
    match ExtractExpiration(u, token)
    case Failure(_) => true               // an unreadable token counts as expired
    case Success(None) => true            // `null.before(...)` throws
    case Success(Some(exp)) => exp < now  // `Date.before` is strict
  }

  /** The acceptance rule stated on a claim set: an expiration not before
      `now`, and a token type of exactly "ACCESS". */
  predicate AcceptableClaims(c: Claims, now: int) {
    && c.expiration.Some?
    && now <= c.expiration.value
    && c.tokenType == Some(Text(AccessType))
  }

  /** `validateToken(token)`: every failure folds to `false`. */
  function ValidateToken(u: JwtUtil, token: string, now: int): (ok: bool)
    ensures ok <==> Parse(u, token).Some? && AcceptableClaims(Parse(u, token).value, now)
  {
    match Parse(u, token)
    case None => false
    case Some(_) =>
      if IsTokenExpired(u, token, now) then false
      else
        match ExtractTokenType(u, token)
        case Failure(_) => false
        case Success(tokenType) => tokenType == Some(AccessType)
  }

  /** A token type that is absent, not a string, or any string other than
      "ACCESS" (a refresh token, say) is never accepted. */
  lemma OnlyAccessTokensValidate(u: JwtUtil, token: string, now: int)
    requires Parse(u, token).Some?
    requires Parse(u, token).value.tokenType != Some(Text(AccessType))
    ensures !ValidateToken(u, token, now)
  {
  }

  /** An expiration equal to `now` is not yet expired. */
  lemma ExpiryBoundary(u: JwtUtil, token: string, now: int)
    requires Parse(u, token).Some?
    requires Parse(u, token).value.expiration == Some(now)
    requires Parse(u, token).value.tokenType == Some(Text(AccessType))
    ensures !IsTokenExpired(u, token, now)
    ensures ValidateToken(u, token, now)
  {
  }

  /** `validateToken(token, username)`: the subject must equal `username`
      and the token must validate; a missing subject or failed parse gives
      `false`. */
  function ValidateTokenFor(u: JwtUtil, token: string, username: string, now: int): (ok: bool)
    ensures ok <==>
      && Parse(u, token).Some?
      && Parse(u, token).value.subject == Some(username)
      && AcceptableClaims(Parse(u, token).value, now)
  {
    match ExtractUsername(u, token)
    case Failure(_) => false
    case Success(None) => false          // `null.equals(...)` throws
    case Success(Some(subject)) => subject == username && ValidateToken(u, token, now)
  }
}

=== FILE: routes.dfy ===
/** The gateway's static route table (`GatewayConfig.customRouteLocator`):
    four routes tried in declaration order, matched on segment-aware double-star
    path patterns, one of them rewriting the path before forwarding. */
module Routes {

  import opened Wrappers
  import opened Strings

  // ---------------------------------------------------------------------
  // Service URLs

  const DefaultUserServiceUrl := "http://localhost:8082"
  const DefaultProjectServiceUrl := "http://localhost:8083"
  const DefaultNotificationServiceUrl := "http://localhost:8084"
  const DefaultCollabServiceUrl := "http://localhost:8090"

  const UserServiceKey := "USER_SERVICE_URL"
  const ProjectServiceKey := "PROJECT_SERVICE_URL"
  const NotificationServiceKey := "NOTIFICATION_SERVICE_URL"
  const CollabServiceKey := "COLLAB_SERVICE_URL"

  datatype ServiceUrls = ServiceUrls(user: string, project: string, notification: string, collab: string)

  /** A `${NAME:default}` placeholder: the environment's value when it has
      one, the default otherwise. */
  function Property(env: map<string, string>, name: string, default: string): (v: string)
    ensures name in env ==> v == env[name]
    ensures name !in env ==> v == default
  {
    if name in env then env[name] else default
  }

  /** The four `@Value` fields. */
  function LoadServiceUrls(env: map<string, string>): ServiceUrls {
    ServiceUrls(
      Property(env, UserServiceKey, DefaultUserServiceUrl),
      Property(env, ProjectServiceKey, DefaultProjectServiceUrl),
      Property(env, NotificationServiceKey, DefaultNotificationServiceUrl),
      Property(env, CollabServiceKey, DefaultCollabServiceUrl))
  }

  /** Without overrides every service is on localhost, on ports 8082, 8083,
      8084 and 8090, and a URL with no override keeps its default. */
  lemma ServiceUrlDefaults(env: map<string, string>)
    ensures LoadServiceUrls(map[]) ==
      ServiceUrls("http://localhost:8082", "http://localhost:8083",
                  "http://localhost:8084", "http://localhost:8090")
    ensures UserServiceKey !in env ==> LoadServiceUrls(env).user == DefaultUserServiceUrl
    ensures ProjectServiceKey !in env ==> LoadServiceUrls(env).project == DefaultProjectServiceUrl
    ensures NotificationServiceKey !in env ==> LoadServiceUrls(env).notification == DefaultNotificationServiceUrl
    ensures CollabServiceKey !in env ==> LoadServiceUrls(env).collab == DefaultCollabServiceUrl
  {
  }

  /** Setting one variable `k` to `v` makes its own service's URL `v` and
      leaves the URL of every service `k` does not name as it was. */
  lemma OverrideReplacesOwnUrl(env: map<string, string>, k: string, v: string)
    ensures k == UserServiceKey ==> LoadServiceUrls(env[k := v]).user == v
    ensures k == ProjectServiceKey ==> LoadServiceUrls(env[k := v]).project == v
    ensures k == NotificationServiceKey ==> LoadServiceUrls(env[k := v]).notification == v
    ensures k == CollabServiceKey ==> LoadServiceUrls(env[k := v]).collab == v
    ensures k != UserServiceKey ==> LoadServiceUrls(env[k := v]).user == LoadServiceUrls(env).user
    ensures k != ProjectServiceKey ==> LoadServiceUrls(env[k := v]).project == LoadServiceUrls(env).project
    ensures k != NotificationServiceKey ==>
      LoadServiceUrls(env[k := v]).notification == LoadServiceUrls(env).notification
    ensures k != CollabServiceKey ==> LoadServiceUrls(env[k := v]).collab == LoadServiceUrls(env).collab
  {
  }

  // ---------------------------------------------------------------------
  // Patterns and routes

  /** `rewritePath("<from>(?<segment>.*)", "<to>${segment}")`: the literal
      `from` and everything after it are replaced by `to` followed by that
      remainder. */
  datatype Rewrite = Rewrite(from: string, to: string)

  datatype Route = Route(id: string, patterns: seq<string>, uri: string, rewrite: Option<Rewrite>)

  const UsersPattern := "/api/users/**"
  const AuthPattern := "/api/auth/**"
  const ProjectsPattern := "/api/projects/**"
  const NotificationsPattern := "/api/notifications/**"
  const CollabPattern := "/api/collab/**"
  const CollabRewrite := Rewrite("/api/collab/", "/api/")

  /** `customRouteLocator`, in declaration order. */
  function RouteTable(urls: ServiceUrls): seq<Route> {
    [ Route("user-service", [UsersPattern, AuthPattern], urls.user, None),
      Route("project-service", [ProjectsPattern], urls.project, None),
      Route("notification-service", [NotificationsPattern], urls.notification, None),
      Route("collab-service", [CollabPattern], urls.collab, Some(CollabRewrite)) ]
  }

  /** Every pattern of the table, in declaration order. */
  const AllPatterns: seq<string> :=
    [UsersPattern, AuthPattern, ProjectsPattern, NotificationsPattern, CollabPattern]

  /** A path pattern: a base followed by the double-star wildcard matches
      the base itself and anything below it segment-wise; a pattern without
      the wildcard matches only itself. */
  predicate PatternMatches(pattern: string, path: string) {
    if |pattern| >= 3 && pattern[|pattern| - 3..] == "/**" then
      var base := pattern[..|pattern| - 3];
      path == base || StartsWith(path, base + "/")
    else path == pattern
  }

  /** `.path(p1, p2, ...)`: any one of the route's patterns matches. */
  predicate RouteMatches(r: Route, path: string) {
    exists i :: 0 <= i < |r.patterns| && PatternMatches(r.patterns[i], path)
  }

  /** The route lookup: the first route at or after `from`, in declaration
      order, whose predicate matches. */
  function Lookup(routes: seq<Route>, path: string, from: nat): (k: Option<nat>)
    decreases |routes| - from
    ensures k.Some? ==>
      && from <= k.value < |routes|
      && RouteMatches(routes[k.value], path)
      && forall j :: from <= j < k.value ==> !RouteMatches(routes[j], path)
    ensures k.None? ==> forall j :: from <= j < |routes| ==> !RouteMatches(routes[j], path)
  {
    if from >= |routes| then None
    else if RouteMatches(routes[from], path) then Some(from)
    else Lookup(routes, path, from + 1)
  }

  /** `RewritePath`: the unanchored regex finds the first occurrence of
      `from`; `.*` takes the rest of the path (a raw URI path holds no line
      terminator), so that occurrence and the rest become `to` + rest. */
  function RewritePath(rw: Rewrite, path: string): string {
    match IndexOf(path, rw.from, 0)
    case None => path
    case Some(i) => path[..i] + rw.to + path[i + |rw.from|..]
  }

  /** Where a request goes: the chosen route's URI and the path it is
      forwarded with. */
  datatype Forwarding = Forwarding(uri: string, path: string)

  /** Route lookup followed by the route's filters. */
  function Resolve(routes: seq<Route>, path: string): Option<Forwarding> {
    match Lookup(routes, path, 0)
    case None => None
    case Some(k) =>
      var r := routes[k];
      Some(Forwarding(r.uri, if r.rewrite.Some? then RewritePath(r.rewrite.value, path) else path))
  }

  // ---------------------------------------------------------------------
  // Matching lemmas

  /** Segment-aware matching of a double-star pattern. */
  lemma WildcardMatches(base: string, path: string)
    ensures PatternMatches(base + "/**", path) <==> path == base || StartsWith(path, base + "/")
  {
    var p := base + "/**";
    assert p[|p| - 3..] == "/**";
    assert p[..|p| - 3] == base;
  }

  /** The double-star pattern over `/X` does not match `/Xsuffix`: a match
      fixes every character of `base`, and the one after it is '/' or the
      end. */
  lemma {:induction false} WildcardFixesPrefix(base: string, path: string)
    requires PatternMatches(base + "/**", path)
    ensures StartsWith(path, base)
    ensures |path| > |base| ==> path[|base|] == '/'
  {
    WildcardMatches(base, path);
    if path != base {
      assert path[..|base|] == (base + "/")[..|base|];
      assert path[|base|] == (base + "/")[|base|];
    }
  }

  lemma SegmentAware()
    ensures PatternMatches(UsersPattern, "/api/users")
    ensures PatternMatches(UsersPattern, "/api/users/42")
    ensures !PatternMatches(UsersPattern, "/api/usersx")
  {
    WildcardMatches("/api/users", "/api/users");
    WildcardMatches("/api/users", "/api/users/42");
    assert StartsWith("/api/users/42", "/api/users/");
    assert "/api/usersx"[10] == 'x';
    if PatternMatches(UsersPattern, "/api/usersx") {
      assert UsersPattern == "/api/users" + "/**";
      WildcardFixesPrefix("/api/users", "/api/usersx");
    }
  }

  /** Every pattern of the table is a base followed by the wildcard. */
  lemma PatternShapes()
    ensures UsersPattern == "/api/users" + "/**"
    ensures AuthPattern == "/api/auth" + "/**"
    ensures ProjectsPattern == "/api/projects" + "/**"
    ensures NotificationsPattern == "/api/notifications" + "/**"
    ensures CollabPattern == "/api/collab" + "/**"
  {
  }

  /** A match fixes the sixth character, which tells the table's patterns
      apart. */
  lemma MatchFixesDiscriminator(base: string, path: string)
    requires |base| > 5
    requires PatternMatches(base + "/**", path)
    ensures |path| > 5 && path[5] == base[5]
  {
    WildcardFixesPrefix(base, path);
    assert path[..|base|][5] == path[5];
  }

  /** No path matches two different patterns of the table. */
  lemma PatternsDisjoint(path: string, i: nat, j: nat)
    requires i < j < |AllPatterns|
    ensures !(PatternMatches(AllPatterns[i], path) && PatternMatches(AllPatterns[j], path))
  {
    var bases := ["/api/users", "/api/auth", "/api/projects", "/api/notifications", "/api/collab"];
    PatternShapes();
    assert forall k :: 0 <= k < 5 ==> AllPatterns[k] == bases[k] + "/**";
    assert bases[0][5] == 'u' && bases[1][5] == 'a' && bases[2][5] == 'p';
    assert bases[3][5] == 'n' && bases[4][5] == 'c';
    if PatternMatches(AllPatterns[i], path) && PatternMatches(AllPatterns[j], path) {
      MatchFixesDiscriminator(bases[i], path);
      MatchFixesDiscriminator(bases[j], path);
    }
  }

  // ---------------------------------------------------------------------
  // Resolution lemmas

  /** Which table routes a path matches, stated on the patterns. */
  lemma TableMatches(urls: ServiceUrls, path: string)
    ensures |RouteTable(urls)| == 4
    ensures RouteMatches(RouteTable(urls)[0], path) <==>
      PatternMatches(AllPatterns[0], path) || PatternMatches(AllPatterns[1], path)
    ensures RouteMatches(RouteTable(urls)[1], path) <==> PatternMatches(AllPatterns[2], path)
    ensures RouteMatches(RouteTable(urls)[2], path) <==> PatternMatches(AllPatterns[3], path)
    ensures RouteMatches(RouteTable(urls)[3], path) <==> PatternMatches(AllPatterns[4], path)
  {
    var t := RouteTable(urls);
    if PatternMatches(AllPatterns[1], path) {
      assert PatternMatches(t[0].patterns[1], path);
    }
    if PatternMatches(AllPatterns[2], path) {
      assert PatternMatches(t[1].patterns[0], path);
    }
    if PatternMatches(AllPatterns[3], path) {
      assert PatternMatches(t[2].patterns[0], path);
    }
    if PatternMatches(AllPatterns[4], path) {
      assert PatternMatches(t[3].patterns[0], path);
    }
  }

  /** Because the patterns are disjoint, the first match in declaration
      order is the only route that matches at all. */
  lemma FirstMatchIsUnique(urls: ServiceUrls, path: string)
    ensures Lookup(RouteTable(urls), path, 0).Some? ==>
      forall j :: 0 <= j < 4 && j != Lookup(RouteTable(urls), path, 0).value ==>
        !RouteMatches(RouteTable(urls)[j], path)
  {
    TableMatches(urls, path);
    forall i: nat, j: nat | i < j < 5
      ensures !(PatternMatches(AllPatterns[i], path) && PatternMatches(AllPatterns[j], path))
    {
      PatternsDisjoint(path, i, j);
    }
  }

  /** Paths under `/api/users` or `/api/auth` go to the user service,
      path unchanged. */
  lemma UserServicePaths(urls: ServiceUrls, path: string)
    requires PatternMatches(UsersPattern, path) || PatternMatches(AuthPattern, path)
    ensures Resolve(RouteTable(urls), path) == Some(Forwarding(urls.user, path))
  {
    TableMatches(urls, path);
  }

  /** Paths under `/api/projects` go to the project service, path
      unchanged. */
  lemma ProjectServicePaths(urls: ServiceUrls, path: string)
    requires PatternMatches(ProjectsPattern, path)
    ensures Resolve(RouteTable(urls), path) == Some(Forwarding(urls.project, path))
  {
    TableMatches(urls, path);
    PatternsDisjoint(path, 0, 2);
    PatternsDisjoint(path, 1, 2);
  }

  /** Paths under `/api/notifications` go to the notification service,
      path unchanged. */
  lemma NotificationServicePaths(urls: ServiceUrls, path: string)
    requires PatternMatches(NotificationsPattern, path)
    ensures Resolve(RouteTable(urls), path) == Some(Forwarding(urls.notification, path))
  {
    TableMatches(urls, path);
    PatternsDisjoint(path, 0, 3);
    PatternsDisjoint(path, 1, 3);
    PatternsDisjoint(path, 2, 3);
  }

  /** Paths under `/api/collab` go to the collab service with the path
      rewritten. */
  lemma CollabServicePaths(urls: ServiceUrls, path: string)
    requires PatternMatches(CollabPattern, path)
    ensures Resolve(RouteTable(urls), path) == Some(Forwarding(urls.collab, RewritePath(CollabRewrite, path)))
  {
    TableMatches(urls, path);
    PatternsDisjoint(path, 0, 4);
    PatternsDisjoint(path, 1, 4);
    PatternsDisjoint(path, 2, 4);
    PatternsDisjoint(path, 3, 4);
  }

  /** A path outside all five patterns matches no route, and only such a
      path does. */
  lemma NoRouteIff(urls: ServiceUrls, path: string)
    ensures Resolve(RouteTable(urls), path).None? <==>
      forall k :: 0 <= k < |AllPatterns| ==> !PatternMatches(AllPatterns[k], path)
  {
    TableMatches(urls, path);
  }

  /** The collab rewrite maps "/api/collab/" + s to "/api/" + s, whatever s. */
  lemma {:induction false} CollabRewriteMaps(s: string)
    ensures RewritePath(CollabRewrite, "/api/collab/" + s) == "/api/" + s
  {
    var from := CollabRewrite.from;
    var path := from + s;
    assert OccursAt(path, from, 0) by {
      assert path[0..|from|] == from;
    }
    assert path[|from|..] == s;
  }

  /** A path without the literal "/api/collab/" is left as it is; in
      particular the bare "/api/collab" matches the collab route but keeps
      its path. */
  lemma RewriteWithoutOccurrence(path: string)
    requires !Contains(path, CollabRewrite.from)
    ensures RewritePath(CollabRewrite, path) == path
  {
  }

  lemma BareCollabPath(urls: ServiceUrls)
    ensures Resolve(RouteTable(urls), "/api/collab") == Some(Forwarding(urls.collab, "/api/collab"))
  {
    WildcardMatches("/api/collab", "/api/collab");
    PatternShapes();
    CollabServicePaths(urls, "/api/collab");
    assert !Contains("/api/collab", CollabRewrite.from);
    RewriteWithoutOccurrence("/api/collab");
  }

  /** Paths the table does not cover, among them the health checks and the
      fallback endpoints, match no route. */
  lemma UncoveredPaths(urls: ServiceUrls)
    ensures Resolve(RouteTable(urls), "/health").None?
    ensures Resolve(RouteTable(urls), "/actuator/health").None?
    ensures Resolve(RouteTable(urls), "/fallback/user-service").None?
  {
    PatternShapes();
    var bases := ["/api/users", "/api/auth", "/api/projects", "/api/notifications", "/api/collab"];
    forall k | 0 <= k < 5 ensures !PatternMatches(AllPatterns[k], "/health")
      && !PatternMatches(AllPatterns[k], "/actuator/health")
      && !PatternMatches(AllPatterns[k], "/fallback/user-service")
    {
      assert AllPatterns[k] == bases[k] + "/**";
      assert bases[k][1] == 'a' && bases[k][2] == 'p';
      DiffersFromBase(bases[k], "/health", 1);
      DiffersFromBase(bases[k], "/actuator/health", 2);
      DiffersFromBase(bases[k], "/fallback/user-service", 1);
    }
    NoRouteIff(urls, "/health");
    NoRouteIff(urls, "/actuator/health");
    NoRouteIff(urls, "/fallback/user-service");
  }

  /** A path that differs from the base at some index within both matches
      none of the base's double-star pattern. */
  lemma DiffersFromBase(base: string, path: string, idx: nat)
    requires idx < |base| && idx < |path| && path[idx] != base[idx]
    ensures !PatternMatches(base + "/**", path)
  {
    if PatternMatches(base + "/**", path) {
      WildcardFixesPrefix(base, path);
    }
  }
}

=== FILE: strings.dfy ===
/** The handful of `java.lang.String` operations the gateway relies on,
    over Dafny strings (sequences of characters). */
module Strings {

  import opened Wrappers

  /** `s.startsWith(prefix)`. */
  predicate StartsWith(s: string, prefix: string) {
    |prefix| <= |s| && s[..|prefix|] == prefix
  }

  /** `pat` occurs in `s` starting at index `i`. */
  predicate OccursAt(s: string, pat: string, i: nat) {
    i + |pat| <= |s| && s[i..i + |pat|] == pat
  }

  /** `s.contains(pat)`. */
  predicate Contains(s: string, pat: string) {
    exists i: nat | i <= |s| :: OccursAt(s, pat, i)
  }

  /** `s.indexOf(pat, from)`: the first index at or after `from` where `pat`
      occurs, or `None` (Java's -1). */
  function IndexOf(s: string, pat: string, from: nat): (k: Option<nat>)
    decreases |s| - from
    ensures k.Some? ==> from <= k.value && OccursAt(s, pat, k.value)
    ensures k.Some? ==> forall j: nat :: from <= j < k.value ==> !OccursAt(s, pat, j)
    ensures k.None? ==> forall j: nat :: from <= j ==> !OccursAt(s, pat, j)
  {
    if |s| < from + |pat| then None
    else if OccursAt(s, pat, from) then Some(from)
    else IndexOf(s, pat, from + 1)
  }

  /** Membership in Java's regular-expression class `\s`:
      space, tab, line feed, vertical tab, form feed and carriage return. */
  predicate IsWhitespace(c: char) {
    c == ' ' || c == '\t' || c == '\n' || c == '\U{000B}' || c == '\U{000C}' || c == '\r'
  }

  predicate NoWhitespace(s: string) {
    forall i :: 0 <= i < |s| ==> !IsWhitespace(s[i])
  }

  /** `s.replaceAll("\\s", "")`. */
  function RemoveWhitespace(s: string): (r: string)
    ensures NoWhitespace(r)
    ensures |r| <= |s|
  {
    if s == [] then []
    else (if IsWhitespace(s[0]) then [] else [s[0]]) + RemoveWhitespace(s[1..])
  }

  /** `s.replace(pat, rep)`: every non-overlapping occurrence of `pat`,
      scanning left to right, is replaced by `rep`. */
  function ReplaceAll(s: string, pat: string, rep: string): string
    requires |pat| > 0
    decreases |s|
  {
    if |s| < |pat| then s
    else if s[..|pat|] == pat then rep + ReplaceAll(s[|pat|..], pat, rep)
    else [s[0]] + ReplaceAll(s[1..], pat, rep)
  }

  /** Characters Java's `String.trim` strips: code points up to U+0020. */
  predicate IsTrimmable(c: char) {
    c <= ' '
  }

  /** Every character of `s` is one `trim` would strip. */
  predicate IsBlank(s: string) {
    forall i :: 0 <= i < |s| ==> IsTrimmable(s[i])
  }

  function TrimStart(s: string): string {
    if s != [] && IsTrimmable(s[0]) then TrimStart(s[1..]) else s
  }

  function TrimEnd(s: string): string {
    if s != [] && IsTrimmable(s[|s| - 1]) then TrimEnd(s[..|s| - 1]) else s
  }

  /** `s.trim()`. */
  function Trim(s: string): string {
    TrimEnd(TrimStart(s))
  }

  // ---------------------------------------------------------------------
  // Lemmas

  lemma {:induction false} TrimStartEmpty(s: string)
    ensures TrimStart(s) == [] <==> IsBlank(s)
    decreases |s|
  {
    if s != [] && IsTrimmable(s[0]) {
      TrimStartEmpty(s[1..]);
      if IsBlank(s[1..]) {
        forall i | 0 <= i < |s| ensures IsTrimmable(s[i]) {
          if i > 0 { assert s[i] == s[1..][i - 1]; }
        }
      }
    }
  }

  /** A non-blank string keeps a non-blank first character after `TrimStart`. */
  lemma {:induction false} TrimStartKeepsNonBlank(s: string)
    requires !IsBlank(s)
    ensures TrimStart(s) != [] && !IsTrimmable(TrimStart(s)[0])
    decreases |s|
  {
    if s != [] && IsTrimmable(s[0]) {
      assert !IsBlank(s[1..]) by {
        var i :| 0 <= i < |s| && !IsTrimmable(s[i]);
        assert s[1..][i - 1] == s[i];
      }
      TrimStartKeepsNonBlank(s[1..]);
    }
  }

  lemma {:induction false} TrimEndKeepsHead(s: string)
    requires s != [] && !IsTrimmable(s[0])
    ensures TrimEnd(s) != []
    decreases |s|
  {
    if IsTrimmable(s[|s| - 1]) {
      assert |s| > 1;
      TrimEndKeepsHead(s[..|s| - 1]);
    }
  }

  /** `s.trim().isEmpty()` holds exactly when every character of `s` is
      one that `trim` strips. */
  lemma TrimEmptyIffBlank(s: string)
    ensures Trim(s) == [] <==> IsBlank(s)
  {
    if IsBlank(s) {
      TrimStartEmpty(s);
    } else {
      TrimStartKeepsNonBlank(s);
      TrimEndKeepsHead(TrimStart(s));
    }
  }

  /** Whitespace removal distributes over concatenation. */
  lemma {:induction false} RemoveWhitespaceAppend(a: string, b: string)
    ensures RemoveWhitespace(a + b) == RemoveWhitespace(a) + RemoveWhitespace(b)
    decreases |a|
  {
    if a != [] {
      assert (a + b)[1..] == a[1..] + b;
      RemoveWhitespaceAppend(a[1..], b);
    } else {
      assert a + b == b;
    }
  }

  /** A string without whitespace cannot contain a pattern that has some. */
  lemma NoWhitespaceExcludes(s: string, pat: string, k: nat)
    requires NoWhitespace(s)
    requires k < |pat| && IsWhitespace(pat[k])
    ensures !Contains(s, pat)
  {
  }

  /** When the first character of `pat` never appears in `s`, replacing
      `pat` leaves `s` unchanged. */
  lemma {:induction false} ReplaceAllAbsent(s: string, pat: string, rep: string)
    requires |pat| > 0
    requires forall i :: 0 <= i < |s| ==> s[i] != pat[0]
    ensures ReplaceAll(s, pat, rep) == s
    decreases |s|
  {
    if |s| >= |pat| {
      assert s[..|pat|][0] == s[0];
      ReplaceAllAbsent(s[1..], pat, rep);
    }
  }

  /** A final separator character survives replacement untouched. */
  lemma ReplaceAllLastChar(x: string, c: char, pat: string, rep: string)
    requires |pat| > 0
    requires forall i :: 0 <= i < |pat| ==> pat[i] != c
    ensures ReplaceAll(x + [c], pat, rep) == ReplaceAll(x, pat, rep) + [c]
  {
    assert x + [c] == x + [c] + [];
    ReplaceAllSplit(x, c, [], pat, rep);
    assert ReplaceAll([], pat, rep) == [];
  }

  /** A character that does not occur in `pat` splits the replacement:
      no occurrence of `pat` can straddle it. */
  lemma {:induction false} ReplaceAllSplit(x: string, c: char, y: string, pat: string, rep: string)
    requires |pat| > 0
    requires forall i :: 0 <= i < |pat| ==> pat[i] != c
    ensures ReplaceAll(x + [c] + y, pat, rep)
         == ReplaceAll(x, pat, rep) + [c] + ReplaceAll(y, pat, rep)
    decreases |x|
  {
    var s := x + [c] + y;
    if |s| < |pat| {
      assert ReplaceAll(y, pat, rep) == y;
    } else if |x| >= |pat| && x[..|pat|] == pat {
      assert s[..|pat|] == pat;
      assert s[|pat|..] == x[|pat|..] + [c] + y;
      ReplaceAllSplit(x[|pat|..], c, y, pat, rep);
    } else {
      if |x| < |pat| {
        assert s[..|pat|][|x|] == c;
      } else {
        assert x[..|pat|] == s[..|pat|];
      }
      assert s[..|pat|] != pat;
      if x == [] {
        assert s[1..] == y;
      } else {
        assert s[1..] == x[1..] + [c] + y;
        ReplaceAllSplit(x[1..], c, y, pat, rep);
      }
    }
  }
}

=== FILE: wrappers.dfy ===
/** How the gateway's Java code signals absence and failure, as values:
    a reference that may be `null`, and a call that may throw. `Result`
    supports Dafny's `:-`, so a throwing step ends the enclosing one early. */
module Wrappers {

  /** A Java reference: `None` where the code sees `null`. */
  datatype Option<+T> = None | Some(value: T)

  /** A Java call: `Success` with its return value, or `Failure` with what
      it threw. */
  datatype Result<+R, +E> = Success(value: R) | Failure(error: E) {

    predicate IsFailure() {
      Failure?
    }

    function PropagateFailure<U>(): Result<U, E>
      requires Failure?
    {
      Failure(error)
    }

    function Extract(): R
      requires Success?
    {
      value
    }
  }
}
